=== FILE: README.md ===
# Escrow orders and disputes: a Dafny model

This project models the core of a peer-to-peer escrow backend. A buyer's
payment is held in escrow until delivery is proven with a one-time code,
then released to the seller; an administrator arbitrates disputes.

Two services are modelled, together with the two records they read and write:

- **The order lifecycle** (`OrderService`). It creates an order in CREATED
  and stores only the hash of a delivery code. It then moves the order to
  PAID_ESCROW_LOCKED on payment, to DELIVERED_PENDING_CONFIRMATION when the
  presented code hashes to the stored hash, and to RELEASED_TO_SELLER on
  release. Before payment, the order can go to CANCELLED instead. Every
  operation looks the order up, checks ownership and role, checks the
  status, and only then writes the one record.
- **The dispute engine** (`DisputeService`). A party opens a dispute on a paid
  or delivered order, which flips the order to DISPUTED. An administrator
  then rules REFUND (order REFUNDED, dispute RESOLVED_REFUNDED) or RELEASE
  (order RELEASED_TO_SELLER, dispute RESOLVED_RELEASED). The engine also has
  its own rules for who may read one dispute and who sees which disputes
  in a list.

The store is a `State`: the role of each user, plus the orders and disputes
in maps keyed by id. Every operation is a pure function returning
`Result<…>`. A failure carries no state, so a failed call changes nothing.
`Routes.Apply` puts each route's role guard and request schema in front of the
service call. It is the transition relation that the invariants in
`Invariants` and the lemmas in `Lifecycle` are stated over.

Record shapes follow the ORM definitions:

- `Order` has seven statuses (src/models/Order.js:27-35) and new orders start
  in CREATED (:36).
- `Dispute` has three statuses (src/models/Dispute.js:23) and new disputes
  start in OPEN (:24).
- Non-null columns are plain fields. Nullable columns (itemName,
  paymentMethod, paymentRef, paidAt, releasedAt, resolutionNote, resolvedAt)
  are `Option`s.
- The DECIMAL(20, 8) amount is an integer count of 10^-8 units. Its column
  range is `FitsAmountColumn` (src/models/Order.js:18-21).
- The item name, payment method and payment reference are the ORM's STRING,
  a VARCHAR(255) on Postgres; the dispute reason and note are TEXT
  (src/models/Dispute.js:18-29). A write that does not fit a column is
  refused by the database, and the model refuses it with `StorageRejected`:
  no character column takes U+0000, and a VARCHAR(255) takes a longer value
  only when the excess is all spaces, which it cuts off (`Models.FitsVarchar`,
  `Models.StoredVarchar`).
- Roles are the closed enumeration BUYER | SELLER | ADMIN
  (src/models/User.js:33).

The environment is passed in as parameters:

- the one-way hash, as `hash: string -> string`;
- the clock, as `now`;
- the number drawn for a generated code, as `random`, required to lie in
  [100000, 999999);
- fresh primary keys, required to be unused.

## Model

| member | source | states |
|---|---|---|
| OrderService.CreateOrder | src/services/orderService.js:6-31 | Fails InvalidSeller unless the seller id names a SELLER user; otherwise fails StorageRejected if the amount overflows DECIMAL(20,8) or the item name does not fit VARCHAR(255). On success it adds exactly one CREATED order with the given buyer, seller, amount and clock, and the item name as the column stores it. The order has no payment or release fields, and its otpHash is the hash of the code it is bound to. The plaintext is handed back iff the caller supplied none. A handed-back code is six digits, denotes the drawn number, and hashes to the stored hash. |
| Models.StoredVarchar | src/models/Order.js:22-25 | A value a VARCHAR(255) column accepts is stored whole, or cut to its first 255 characters when only spaces follow them; what is stored has at most 255 characters and no U+0000. |
| Otp.GeneratedOtp | src/services/orderService.js:16 | A number drawn from [100000, 999999) renders as exactly six decimal digits with a non-zero first digit, and reads back as the drawn number. |
| Otp.EchoedOtp | src/services/orderService.js:28-31 | A code is echoed iff the caller supplied none. An absent field and an empty string both count as not supplied (JavaScript truthiness). The echoed code is the one the order is bound to. |
| Otp.PlainOtp | src/services/orderService.js:15-17 | The order is bound to the caller's code when one is supplied, and otherwise to a six-digit code for the drawn number. |
| Otp.DecimalString | src/services/orderService.js:16 | `toString` of a non-negative integer is a non-empty digit string. Its first digit is '0' only for zero. |
| Otp.DecimalRoundTrip | src/services/orderService.js:16 | Reading the decimal text of n gives back n. |
| Otp.DecimalLength | src/services/orderService.js:16 | A number with k+1 digits has decimal text of length k+1. |
| OrderService.GetOrder | src/services/orderService.js:34-50 | Fails NotFound for a missing id, then Unauthorized unless the caller is an administrator, the buyer or the seller. On success it returns the stored order. |
| OrderService.ListUserOrders | src/services/orderService.js:52-66 | The result is sorted newest first by createdAt and has no duplicates. An order of the store appears iff the caller's role selects it: a BUYER gets exactly their purchases, a SELLER exactly their sales, an ADMIN every order. |
| OrderService.InsertNewestFirst | src/services/orderService.js:64 | Inserting into a newest-first list keeps it newest first and adds exactly the new order. |
| OrderService.InsertKeepsNoDuplicates | src/services/orderService.js:58-65 | Inserting an order that is not yet listed keeps the list duplicate-free. |
| OrderService.MarkAsPaid | src/services/orderService.js:68-82 | Succeeds iff the order exists, the caller is its buyer, it is CREATED, and the payment method and reference fit VARCHAR(255), with failures in that precedence: NotFound, Unauthorized, InvalidState, StorageRejected. On success it sets PAID_ESCROW_LOCKED, the payment method and the reference as the columns store them, and paidAt = now. Nothing else in the order or the store changes. |
| OrderService.ConfirmDelivery | src/services/orderService.js:84-96 | Succeeds iff the order exists, the caller is its buyer, it is PAID_ESCROW_LOCKED and the code hashes to otpHash. Failures come in that precedence: NotFound, Unauthorized, InvalidState, then InvalidOtp for a hash mismatch. Success changes only the status, to DELIVERED_PENDING_CONFIRMATION. |
| OrderService.ReleaseFunds | src/services/orderService.js:98-115 | Succeeds iff the order exists, the caller is an administrator or the buyer, and either the caller is an administrator or the order is DELIVERED_PENDING_CONFIRMATION. Failures come in that precedence: NotFound, Unauthorized, then InvalidState for a buyer on any other status. Success sets RELEASED_TO_SELLER and releasedAt = now and changes nothing else. |
| OrderService.CancelOrder | src/services/orderService.js:117-130 | Succeeds iff the order exists, the caller is an administrator, the buyer or the seller, and the order is CREATED. Failures come in that precedence: NotFound, Unauthorized, InvalidState. Success changes only the status, to CANCELLED. |
| DisputeService.OpenDispute | src/services/disputeService.js:4-26 | Fails NotFound for a missing order, then Unauthorized unless the caller is its buyer or seller, then InvalidState unless it is PAID_ESCROW_LOCKED or DELIVERED_PENDING_CONFIRMATION, then StorageRejected for a reason holding U+0000, before any write. On success it adds one OPEN dispute (creator = caller, the given reason, no resolution fields) and sets only that order's status to DISPUTED. |
| DisputeService.OpenDisputeAsWrittenNeverOpens | src/services/disputeService.js:4-6 | On every input where the intended operation opens a dispute, the code as written ends in a ReferenceError instead. |
| DisputeService.ResolveDispute | src/services/disputeService.js:28-58 | Fails NotFound for a missing dispute, then AlreadyResolved unless it is OPEN, then InvalidDecision for a decision other than REFUND/RELEASE, then a TypeError if its order is missing, then StorageRejected for a note holding U+0000. Neither record changes on failure. REFUND gives order REFUNDED and dispute RESOLVED_REFUNDED. RELEASE gives order RELEASED_TO_SELLER with releasedAt = now and dispute RESOLVED_RELEASED. Both outcomes set the note and resolvedAt = now. The order's own status is never consulted. |
| DisputeService.DecisionOf | src/services/disputeService.js:36-55 | The text "REFUND" and only it denotes a refund, "RELEASE" and only it a release; any other text is unrecognised and keeps its text. |
| DisputeService.GetDispute | src/services/disputeService.js:60-72 | Fails NotFound for a missing id. Otherwise it succeeds iff the caller is an administrator, the dispute's creator, or the seller of its order, and it returns the stored dispute. A caller who is neither an administrator nor the creator gets a TypeError when the dispute's order is missing, and Unauthorized when the order exists with another seller. |
| DisputeService.ListDisputes | src/services/disputeService.js:74-90 | The result has no duplicates. A dispute appears iff the caller is an administrator, or its order exists and has the caller as buyer or seller. |
| OrderService.ListedOrdersAreReadable | src/services/orderService.js:42-56 | Every order the caller's list selects, getOrder returns to that caller. |
| Routes.Apply | src/routes/orderRoutes.js:10-218 | Over the order routes and the dispute routes (src/routes/disputeRoutes.js:10-133): a request the route's role guard refuses fails Unauthorized. BUYER only for create, pay and confirm, ADMIN only for resolve; release, cancel and opening a dispute are unguarded. A body the schema refuses fails InvalidInput: amount > 0, six-character codes, a known payment method, reasons of at least 10 characters, notes of at least 5, decision REFUND or RELEASE. Both happen before the service sees the store. No request changes the users or deletes a record. |
| Routes.RoutedResolutionIsRecognised | src/routes/disputeRoutes.js:17-22 | Through the route, a resolution never reaches the service's invalid-decision branch. |
| Invariants.ApplyPreservesValid | src/models/Order.js:10-57 | Every successful request, by anyone, keeps the store invariant. Records sit under their own id. Amounts are positive and fit the column. Buyer and seller differ. A CREATED or CANCELLED order has no payment or release fields. An order that is PAID_ESCROW_LOCKED, DELIVERED_PENDING_CONFIRMATION, DISPUTED or REFUNDED has a payment method and paidAt. A RELEASED_TO_SELLER order has releasedAt, and only RELEASED_TO_SELLER and REFUNDED orders have one. Every stored item name, payment method and reference has at most 255 characters and no U+0000. |
| Invariants.ResolvePreservesValid | src/models/Dispute.js:10-33 | Resolution keeps the dispute invariant. A dispute has resolvedAt iff it is no longer OPEN, and an OPEN dispute has no note. Reasons and notes hold no U+0000. Each dispute was opened by a party to an existing order. That order has a payment method and paidAt, and is neither CREATED, CANCELLED, PAID_ESCROW_LOCKED nor DELIVERED_PENDING_CONFIRMATION. At most one dispute exists per order. |
| Invariants.ApplyPreservesCoupled | src/services/disputeService.js:16-52 | Every successful request except an administrator's release keeps each dispute in step with its order: OPEN goes with DISPUTED, RESOLVED_REFUNDED with REFUNDED, RESOLVED_RELEASED with RELEASED_TO_SELLER. |
| Invariants.ApplyKeepsDisputedOpen | src/services/disputeService.js:16-52 | Every successful request, an administrator's release included, keeps every DISPUTED order paired with an OPEN dispute on it, so no order is left DISPUTED with nothing to rule on. |
| Invariants.AdminReleaseBreaksCoupling | src/services/orderService.js:102-114 | An administrator can release a DISPUTED order while its dispute stays OPEN. A later REFUND ruling then still succeeds and refunds an order whose funds were already released. |
| Lifecycle.NonAdminOrderStepsFollowEscrowPath | src/services/orderService.js:68-130 | Any successful order request by a buyer or seller, in any store, moves each order along CREATED→PAID→DELIVERED→RELEASED or CREATED→CANCELLED, or leaves it. New orders are CREATED. |
| Lifecycle.StepsFollowLifecycle | src/services/disputeService.js:12-52 | In a valid, coupled store, every successful request except an administrator's release follows the full graph: the escrow path, PAID/DELIVERED→DISPUTED, and DISPUTED→REFUNDED or RELEASED. |
| Lifecycle.TerminalOrdersStayPut | src/services/orderService.js:72-125 | In a valid, coupled store, outside an administrator's release, a RELEASED, REFUNDED or CANCELLED order keeps its status. |
| Lifecycle.AdminReleasesFromAnyStatus | src/services/orderService.js:103-114 | An administrator's release succeeds on an order of any status, CANCELLED, REFUNDED and DISPUTED included. |
| Lifecycle.DisputeBlocksReopening | src/services/disputeService.js:12-14 | In a valid store, an order that already has a dispute cannot get another. A party gets InvalidState; there is no separate duplicate check. |
| Lifecycle.NoSecondDispute | src/services/disputeService.js:12-23 | Right after a dispute is opened on an order, a second openDispute on it fails. A party gets InvalidState and anyone else gets Unauthorized. |
| Lifecycle.SellerCannotActAsBuyer | src/services/orderService.js:68-91 | In a valid store, the seller of an order can neither pay for it nor confirm its delivery. |
| Lifecycle.OtpRoundTrip | src/services/orderService.js:84-96 | An order created without a code, with an item name its column takes, hands back one. Once the order is paid, that code confirms delivery. Any other code confirms iff it hashes alike, and otherwise fails InvalidOtp. A second confirmation fails InvalidState. |
| Lifecycle.OnlyTheGeneratedCodeConfirms | src/services/orderService.js:90-91 | With a collision-free hash, every code other than the generated one is refused with InvalidOtp. |
| Lifecycle.EscrowWalkthrough | src/services/orderService.js:6-115 | One trade end to end through the routes: create (code "482913" handed back), pay, a wrong code refused, the right code accepted, release, and a second release refused with InvalidState. |
| Lifecycle.ReadableDisputesAreListed | src/services/disputeService.js:64-89 | In a valid store, whoever may read a dispute by id also finds it in their dispute list. |
| Lifecycle.BuyerListsDisputeButCannotReadIt | src/services/disputeService.js:64-89 | The two visibility rules disagree. A buyer sees a dispute the seller opened in the list, but reading it by id is refused. |

## Behaviour the code does not guard against

The model follows the code in each case below, where the intended escrow
rules are stricter.

- An administrator's release has no status check at all. It can release a
  CREATED, CANCELLED, REFUNDED or DISPUTED order, and can release twice. The
  intended rule allows a release only from a non-terminal status.
- As a result, paidAt is not set on every order that reaches
  RELEASED_TO_SELLER, although a release is meant to follow payment: an
  administrator can release an unpaid order.
- "OPEN dispute ⇒ order DISPUTED" holds for every request except an
  administrator's release (`Invariants.ApplyPreservesCoupled`,
  `Invariants.AdminReleaseBreaksCoupling`). The other half, "order DISPUTED ⇒
  an OPEN dispute on it", holds for every request
  (`Invariants.ApplyKeepsDisputedOpen`).
- There is no check that rejects a second dispute on the same order. A second dispute is refused only
  because the order is no longer paid or delivered.
- `resolveDispute` never looks at the order's status.
- `getDispute` admits the creator and the order's seller. `listDisputes`
  shows both parties. A buyer may therefore list a dispute they cannot read.
- No update checks for a concurrent write, so there is no conflict outcome.

## Findings

| source | as written | input that shows it | evidently intended | confidence | as-written member | corrected member |
|---|---|---|---|---|---|---|
| src/services/disputeService.js:4-6 | `openDispute` tests and reads `order`, a name nothing declares. The controller also passes `(userId, orderId, reason)` where the service expects `(userId, {orderId, reason})`. | Any call, e.g. the buyer of a PAID_ESCROW_LOCKED order opening a dispute: a ReferenceError is thrown before any record is read | Look the order up by `orderId` and fail NotFound when it is absent, then apply the party and status checks | high (not executed) | DisputeService.OpenDisputeAsWritten, with DisputeService.OpenDisputeAsWrittenNeverOpens | DisputeService.OpenDispute |

## Left out

- HTTP transport, the OpenAPI comments, and the controllers' mapping of
  errors to status codes. Only the route role guards and schema bounds are
  kept, in `Routes`.
- User registration, login, profile update and deactivation, bcrypt and
  JWT. The users are a fixed map from id to role, and the caller is assumed
  authenticated with the role stored for them.
- The UUID format checks of the schemas: ids are plain strings.
- bcrypt's salting. The hash is a deterministic parameter and comparison is
  equality of hashes.
- `crypto.randomInt`, `new Date()` and UUIDv4 generation. These are the
  parameters `random`, `now` and fresh ids.
- The conversion of the JSON number `amount` to DECIMAL(20, 8), including
  rounding beyond 8 fractional digits: amounts are integer units. The
  invariant "amounts are positive" (`Invariants.ApplyPreservesValid`)
  depends on this. The schema accepts any amount above zero, e.g. 1e-9,
  and the column stores that as 0.00000000.
- Routes.BodyValid: counts string lengths in characters. The schema counts
  UTF-16 code units (src/routes/orderRoutes.js:15,28;
  src/routes/disputeRoutes.js:13,20). A character outside the Basic
  Multilingual Plane counts once here and twice there, so "😀😀😀" is a
  six-unit code the schema accepts but `BodyValid` refuses.
- DisputeService.ResolveDispute: reads the clock once, so a RELEASE ruling
  sets the order's releasedAt and the dispute's resolvedAt to the same
  `now`. The source reads `new Date()` separately for each
  (src/services/disputeService.js:46,51), so the two may differ slightly.
- The user rows joined into `getOrder`, `listUserOrders`, `getDispute` and
  `listDisputes` results. These joins are for display only.
- The ORM's `updatedAt` column. `createdAt` is set to `now` on creation.
- OrderService.ListUserOrders: has no branch for a role other than BUYER,
  SELLER or ADMIN, because roles are a closed enumeration. The source's
  Unauthorized branch for any other role cannot be reached.
- OrderService.ListUserOrders: fixes one order among orders with equal
  createdAt. The database leaves that order unspecified.
- DisputeService.ListDisputes: states nothing about the order of its
  result. The source does not request one.
- Concurrency and transactions. `resolveDispute`'s two separate writes are
  one atomic step here, and interleavings are not modelled.
- DisputeService.ResolveDispute: a note holding U+0000 fails with
  StorageRejected and changes nothing. In the source the order's write
  (REFUNDED or RELEASED_TO_SELLER) has already gone through when the
  dispute's write is refused (src/services/disputeService.js:37-42, :44-52),
  because the two writes share no transaction. A failure here carries no
  store, so that half-done state is not modelled.
- The otpHash column is a VARCHAR(255) too. The hash is a parameter and its
  output is stored as given; a bcrypt hash is 60 ASCII characters and always
  fits.

=== FILE: authorization.dfy ===
/** Who may do what: pure predicates over the acting user (id and role) and the
    record acted on. The services consult them before any write; the route
    guards admit a request by role alone before the service runs. */
module Authorization {
  import opened Models

  /** The authenticated caller, as the identity layer supplies it. */
  datatype Actor = Actor(id: UserId, role: Role)

  /** The caller is a registered user holding the role it presents. */
  predicate Authenticated(st: State, actor: Actor) {
    actor.id in st.users && st.users[actor.id] == actor.role
  }

  /** The user is the buyer or the seller of the order. */
  predicate IsParty(user: UserId, o: Order) {
    o.buyerId == user || o.sellerId == user
  }

  /** Reading one order: an administrator, or a party to it. */
  predicate MayViewOrder(user: UserId, role: Role, o: Order) {
    role == Admin || IsParty(user, o)
  }

  /** Paying for or confirming delivery of an order: its buyer only. */
  predicate MayActAsBuyer(user: UserId, o: Order) {
    o.buyerId == user
  }

  /** Releasing the escrowed funds: an administrator, or the buyer. */
  predicate MayRelease(user: UserId, role: Role, o: Order) {
    role == Admin || o.buyerId == user
  }

  /** Cancelling an order: an administrator, or a party to it. */
  predicate MayCancel(user: UserId, role: Role, o: Order) {
    role == Admin || IsParty(user, o)
  }

  /** Opening a dispute about an order: a party to it (an administrator is not enough). */
  predicate MayOpenDispute(user: UserId, o: Order) {
    IsParty(user, o)
  }

  /** Reading one dispute: an administrator, the party who opened it, or the seller
      of its order. The buyer of the order is not admitted unless the buyer opened it. */
  predicate MayViewDispute(user: UserId, role: Role, d: Dispute, orders: map<OrderId, Order>) {
    || role == Admin
    || d.createdBy == user
    || (d.orderId in orders && orders[d.orderId].sellerId == user)
  }

  /** Whether an order appears in the caller's order list. */
  predicate ListsOrder(user: UserId, role: Role, o: Order) {
    match role
    case Buyer => o.buyerId == user
    case Seller => o.sellerId == user
    case Admin => true
  }

  /** Whether a dispute appears in the caller's dispute list: every dispute for an
      administrator; otherwise those whose order exists and has the caller as a party. */
  predicate ListsDispute(user: UserId, role: Role, d: Dispute, orders: map<OrderId, Order>) {
    role == Admin || (d.orderId in orders && IsParty(user, orders[d.orderId]))
  }

  /** The HTTP endpoints of the two services. */
  datatype Endpoint =
    | OrdersPost | OrdersList | OrderGet | OrderPay | OrderConfirm | OrderRelease | OrderCancel
    | DisputesPost | DisputesList | DisputeGet | DisputeResolve

  /** The role guard a route applies before validation and before the service runs. */
  predicate RouteAdmits(e: Endpoint, role: Role) {
    match e
    case OrdersPost | OrderPay | OrderConfirm => role == Buyer
    case DisputeResolve => role == Admin
    case _ => true
  }
}

=== FILE: dispute_service.dfy ===
/** The dispute engine: opening a dispute on a paid or delivered order (which
    flags the order DISPUTED), resolution by an administrator (which refunds or
    releases the order), and the two visibility rules for reading disputes. */
module DisputeService {
  import opened Results
  import opened Models
  import opened Authorization

  /** What a successful dispute write hands back: the new store and the dispute record. */
  datatype DisputeWrite = DisputeWrite(state: State, dispute: Dispute)

  /** A decision text that is neither of the two rulings. */
  type OtherText = s: string | s != "REFUND" && s != "RELEASE" witness ""

  /** The administrator's ruling. The route admits only the first two; the
      service itself also meets any other text. */
  datatype Decision = Refund | Release | Unrecognized(text: OtherText)

  /** The ruling a decision text denotes: the service compares it with "REFUND"
      and then with "RELEASE". */
  function DecisionOf(text: string): (d: Decision)
    ensures d == Refund <==> text == "REFUND"
    ensures d == Release <==> text == "RELEASE"
    ensures d.Unrecognized? ==> d.text == text
  {
    if text == "REFUND" then Refund
    else if text == "RELEASE" then Release
    else Unrecognized(text)
  }

  /** The order statuses a dispute may be opened from: money is locked in escrow. */
  predicate Disputable(s: OrderStatus) {
    s == PaidEscrowLocked || s == DeliveredPendingConfirmation
  }

  /** The dispute status a recognised decision ends in. */
  function ResolvedStatus(decision: Decision): DisputeStatus
    requires !decision.Unrecognized?
  {
    if decision == Refund then ResolvedRefunded else ResolvedReleased
  }

  /** The order a recognised decision leaves behind. */
  function RuledOrder(o: Order, decision: Decision, now: Time): Order
    requires !decision.Unrecognized?
  {
    if decision == Refund then o.(status := Refunded)
    else o.(status := ReleasedToSeller, releasedAt := Some(now))
  }

  /** openDispute as the service is written: its first statement reads a binding
      `order` that nothing declares, so every call ends in a ReferenceError before
      any record is read or written. */
  function OpenDisputeAsWritten(st: State, userId: UserId, orderId: OrderId, reason: string,
                                newId: DisputeId, now: Time): (r: Result<DisputeWrite>)
  {
    Failure(RuntimeFault)
  }

  /** openDispute as evidently intended: look the order up by `orderId`, then the
      party and status checks, then create the dispute and flag the order. The
      insert is refused when the reason does not fit its column, before the order
      is written. */
  function OpenDispute(st: State, userId: UserId, orderId: OrderId, reason: string,
                       newId: DisputeId, now: Time): (r: Result<DisputeWrite>)
    requires newId !in st.disputes
    ensures orderId !in st.orders ==> r == Failure(NotFound)
    ensures orderId in st.orders && !MayOpenDispute(userId, st.orders[orderId]) ==> r == Failure(Unauthorized)
    ensures (orderId in st.orders && MayOpenDispute(userId, st.orders[orderId])
             && !Disputable(st.orders[orderId].status)) ==> r == Failure(InvalidState)
    ensures (orderId in st.orders && MayOpenDispute(userId, st.orders[orderId])
             && Disputable(st.orders[orderId].status) && !FitsText(reason)) ==> r == Failure(StorageRejected)
    ensures r.Success? <==>
      && orderId in st.orders && MayOpenDispute(userId, st.orders[orderId])
      && Disputable(st.orders[orderId].status) && FitsText(reason)
    ensures r.Failure? ==> r.error in {NotFound, Unauthorized, InvalidState, StorageRejected}
    ensures r.Success? ==>
      var d := r.value.dispute;
      && d.id == newId && d.orderId == orderId && d.createdBy == userId && d.reason == reason
      && d.status == Open && d.resolutionNote.None? && d.resolvedAt.None? && d.createdAt == now
      && r.value.state.users == st.users
      && r.value.state.disputes == st.disputes[newId := d]
      && r.value.state.orders == st.orders[orderId := st.orders[orderId].(status := Disputed)]
  {
    if orderId !in st.orders then Failure(NotFound)
    else
      var o := st.orders[orderId];
      if !MayOpenDispute(userId, o) then Failure(Unauthorized)
      else if !Disputable(o.status) then Failure(InvalidState)
      else if !FitsText(reason) then Failure(StorageRejected)
      else
        var d := Dispute(newId, orderId, userId, reason, Open, None, None, now);
        Success(DisputeWrite(State(st.users, st.orders[orderId := o.(status := Disputed)],
                                   st.disputes[newId := d]), d))
  }

  /** Wherever the intended openDispute opens a dispute, the code as written
      fails instead. */
  lemma OpenDisputeAsWrittenNeverOpens(st: State, userId: UserId, orderId: OrderId, reason: string,
                                       newId: DisputeId, now: Time)
    requires newId !in st.disputes
    requires orderId in st.orders && MayOpenDispute(userId, st.orders[orderId])
    requires Disputable(st.orders[orderId].status) && FitsText(reason)
    ensures OpenDispute(st, userId, orderId, reason, newId, now).Success?
    ensures OpenDisputeAsWritten(st, userId, orderId, reason, newId, now) == Failure(RuntimeFault)
  {
  }

  /** Rules on an OPEN dispute. The order's status is not consulted; a missing
      order makes a recognised decision fail with a TypeError before any write,
      and a note the column refuses makes the dispute's write fail. */
  function ResolveDispute(st: State, disputeId: DisputeId, decision: Decision,
                          resolutionNote: Option<string>, now: Time): (r: Result<DisputeWrite>)
    ensures disputeId !in st.disputes ==> r == Failure(NotFound)
    ensures disputeId in st.disputes && st.disputes[disputeId].status != Open ==> r == Failure(AlreadyResolved)
    ensures disputeId in st.disputes && st.disputes[disputeId].status == Open && decision.Unrecognized? ==>
              r == Failure(InvalidDecision)
    ensures (disputeId in st.disputes && st.disputes[disputeId].status == Open && !decision.Unrecognized?
             && st.disputes[disputeId].orderId !in st.orders) ==> r == Failure(RuntimeFault)
    ensures (disputeId in st.disputes && st.disputes[disputeId].status == Open && !decision.Unrecognized?
             && st.disputes[disputeId].orderId in st.orders
             && resolutionNote.Some? && !FitsText(resolutionNote.value)) ==> r == Failure(StorageRejected)
    ensures r.Success? <==>
      && disputeId in st.disputes && st.disputes[disputeId].status == Open
      && !decision.Unrecognized? && st.disputes[disputeId].orderId in st.orders
      && (resolutionNote.Some? ==> FitsText(resolutionNote.value))
    ensures r.Failure? ==> r.error in {NotFound, AlreadyResolved, InvalidDecision, RuntimeFault, StorageRejected}
    ensures r.Success? ==>
      var d, d' := st.disputes[disputeId], r.value.dispute;
      && r.value.state.users == st.users
      && r.value.state.disputes == st.disputes[disputeId := d']
      && d'.id == d.id && d'.orderId == d.orderId && d'.createdBy == d.createdBy
      && d'.reason == d.reason && d'.createdAt == d.createdAt
      && d'.status == (if decision == Refund then ResolvedRefunded else ResolvedReleased)
      && d'.resolutionNote == resolutionNote && d'.resolvedAt == Some(now)
    ensures r.Success? ==>
      var k := st.disputes[disputeId].orderId;
      k in r.value.state.orders && r.value.state.orders == st.orders[k := r.value.state.orders[k]]
    ensures r.Success? ==>
      var k := st.disputes[disputeId].orderId;
      var o, o' := st.orders[k], r.value.state.orders[k];
      && SameTerms(o, o') && o'.paymentMethod == o.paymentMethod && o'.paymentRef == o.paymentRef
      && o'.paidAt == o.paidAt
      && (decision == Refund ==> o'.status == Refunded && o'.releasedAt == o.releasedAt)
      && (decision == Release ==> o'.status == ReleasedToSeller && o'.releasedAt == Some(now))
  {
    if disputeId !in st.disputes then Failure(NotFound)
    else
      var d := st.disputes[disputeId];
      if d.status != Open then Failure(AlreadyResolved)
      else if decision.Unrecognized? then Failure(InvalidDecision)
      else if d.orderId !in st.orders then Failure(RuntimeFault)
      else if resolutionNote.Some? && !FitsText(resolutionNote.value) then Failure(StorageRejected)
      else
        var d' := d.(status := ResolvedStatus(decision), resolutionNote := resolutionNote, resolvedAt := Some(now));
        var o' := RuledOrder(st.orders[d.orderId], decision, now);
        Success(DisputeWrite(State(st.users, st.orders[d.orderId := o'], st.disputes[disputeId := d']), d'))
  }

  /** Reads one dispute: an administrator, its creator, or the seller of its order. */
  function GetDispute(st: State, disputeId: DisputeId, userId: UserId, role: Role): (r: Result<Dispute>)
    ensures disputeId !in st.disputes ==> r == Failure(NotFound)
    ensures r.Success? <==> disputeId in st.disputes && MayViewDispute(userId, role, st.disputes[disputeId], st.orders)
    ensures r.Success? ==> r.value == st.disputes[disputeId]
    ensures disputeId in st.disputes && role != Admin && st.disputes[disputeId].createdBy != userId ==>
      var k := st.disputes[disputeId].orderId;
      && (k !in st.orders ==> r == Failure(RuntimeFault))
      && (k in st.orders && st.orders[k].sellerId != userId ==> r == Failure(Unauthorized))
    ensures r.Failure? ==> r.error in {NotFound, Unauthorized, RuntimeFault}
  {
    if disputeId !in st.disputes then Failure(NotFound)
    else
      var d := st.disputes[disputeId];
      if role == Admin || d.createdBy == userId then Success(d)
      else if d.orderId !in st.orders then Failure(RuntimeFault)
      else if st.orders[d.orderId].sellerId != userId then Failure(Unauthorized)
      else Success(d)
  }

  /** Lists the disputes visible to the caller: all of them for an administrator,
      otherwise those whose order has the caller as buyer or seller. */
  method ListDisputes(st: State, role: Role, userId: UserId) returns (r: seq<Dispute>)
    requires KeyedById(st)
    ensures NoDuplicates(r)
    ensures forall k :: k in st.disputes ==>
              (st.disputes[k] in r <==> ListsDispute(userId, role, st.disputes[k], st.orders))
    ensures forall d :: d in r ==>
              d.id in st.disputes && st.disputes[d.id] == d && ListsDispute(userId, role, d, st.orders)
  {
    r := [];
    var todo := st.disputes.Keys;
    while todo != {}
      invariant todo <= st.disputes.Keys
      invariant NoDuplicates(r)
      invariant forall k :: k in st.disputes && k !in todo ==>
                  (st.disputes[k] in r <==> ListsDispute(userId, role, st.disputes[k], st.orders))
      invariant forall d :: d in r ==>
                  d.id in st.disputes && d.id !in todo && st.disputes[d.id] == d
                  && ListsDispute(userId, role, d, st.orders)
      decreases todo
    {
      var k :| k in todo;
      var d := st.disputes[k];
      if ListsDispute(userId, role, d, st.orders) {
        r := r + [d];
      }
      todo := todo - {k};
    }
  }
}

=== FILE: invariants.dfy ===
/** Facts about the store that every request keeps, and the coupling between a
    dispute's status and its order's status, which every request except an
    administrator's release keeps. */
module Invariants {
  import opened Results
  import opened Models
  import opened Authorization
  import opened OrderService
  import opened DisputeService
  import opened Routes

  /** The statuses an order only reaches through payment. */
  predicate Paid(s: OrderStatus) {
    s == PaidEscrowLocked || s == DeliveredPendingConfirmation || s == Disputed || s == Refunded
  }

  /** An order record as the operations leave it. */
  predicate OrderWellFormed(o: Order) {
    && 0 < o.amount && FitsAmountColumn(o.amount)
    && o.buyerId != o.sellerId
    && (o.status == Created || o.status == Cancelled ==> Untouched(o))
    && (Paid(o.status) ==> o.paymentMethod.Some? && o.paidAt.Some?)
    && (o.status == ReleasedToSeller ==> o.releasedAt.Some?)
    && (o.releasedAt.Some? ==> o.status == ReleasedToSeller || o.status == Refunded)
    && HeldByVarchar(o.itemName) && HeldByVarchar(o.paymentMethod) && HeldByVarchar(o.paymentRef)
  }

  /** A dispute record as the operations leave it: resolution fields are set only
      on resolution, and it was opened by a party to its order. */
  predicate DisputeWellFormed(d: Dispute, orders: map<OrderId, Order>) {
    && |d.reason| >= MinReasonLength && FitsText(d.reason)
    && (d.resolutionNote.Some? ==> FitsText(d.resolutionNote.value))
    && (d.status == Open <==> d.resolvedAt.None?)
    && (d.status == Open ==> d.resolutionNote.None?)
    && d.orderId in orders
    && IsParty(d.createdBy, orders[d.orderId])
    && orders[d.orderId].status != Created
    && orders[d.orderId].status != Cancelled
    && !Disputable(orders[d.orderId].status)
    && orders[d.orderId].paymentMethod.Some? && orders[d.orderId].paidAt.Some?
  }

  /** The store invariant. */
  predicate Valid(st: State) {
    && KeyedById(st)
    && (forall k :: k in st.orders ==> OrderWellFormed(st.orders[k]))
    && (forall k :: k in st.disputes ==> DisputeWellFormed(st.disputes[k], st.orders))
    && (forall k1, k2 ::
          k1 in st.disputes && k2 in st.disputes && st.disputes[k1].orderId == st.disputes[k2].orderId
          ==> k1 == k2)
  }

  /** The order status a dispute status goes with. */
  function CoupledStatus(s: DisputeStatus): OrderStatus {
    match s
    case Open => Disputed
    case ResolvedRefunded => Refunded
    case ResolvedReleased => ReleasedToSeller
  }

  /** Every dispute's status agrees with its order's status. */
  predicate Coupled(st: State) {
    forall k :: k in st.disputes && st.disputes[k].orderId in st.orders ==>
      st.orders[st.disputes[k].orderId].status == CoupledStatus(st.disputes[k].status)
  }

  /** The order's side of the coupling: a DISPUTED order has an OPEN dispute,
      so an administrator can always rule on it. */
  predicate DisputedHasOpen(st: State) {
    forall k :: k in st.orders && st.orders[k].status == Disputed ==>
      exists j :: j in st.disputes && st.disputes[j].orderId == k && st.disputes[j].status == Open
  }

  /** An administrator's release, the one request that ignores the order's status. */
  predicate AdminRelease(actor: Actor, req: Request) {
    req.ReleaseRequest? && actor.role == Admin
  }

  /** The empty store, with any set of registered users, satisfies the invariants. */
  lemma EmptyStoreValid(users: map<UserId, Role>)
    ensures Valid(State(users, map[], map[])) && Coupled(State(users, map[], map[]))
    ensures DisputedHasOpen(State(users, map[], map[]))
  {
  }

  /** A write that replaces one order by a well-formed record with the same terms
      keeps the invariant, provided any dispute on it still finds the order paid
      and out of reach of another dispute. */
  lemma {:induction false} OrderWriteKeepsValid(st: State, k: OrderId, o': Order)
    requires Valid(st) && k in st.orders && o'.id == k
    requires SameTerms(st.orders[k], o') && OrderWellFormed(o')
    requires (exists j :: j in st.disputes && st.disputes[j].orderId == k) ==>
      && o'.status != Created && o'.status != Cancelled && !Disputable(o'.status)
      && o'.paymentMethod.Some? && o'.paidAt.Some?
    ensures Valid(st.(orders := st.orders[k := o']))
  {
  }

  /** No dispute refers to an order that is still CREATED, PAID or DELIVERED. */
  lemma {:induction false} NoDisputeOnLiveOrder(st: State, k: OrderId)
    requires Valid(st) && k in st.orders
    requires st.orders[k].status == Created || Disputable(st.orders[k].status)
    ensures forall j :: j in st.disputes ==> st.disputes[j].orderId != k
  {
  }

  lemma {:induction false} CreatePreservesValid(st: State, actor: Actor, req: Request, now: Time, hash: string -> string)
    requires Valid(st) && Authenticated(st, actor) && EnvFresh(st, req) && req.CreateRequest?
    requires Apply(st, actor, req, now, hash).Success?
    ensures Valid(Apply(st, actor, req, now, hash).value)
  {
    var c := CreateOrder(st, actor.id, req.sellerId, req.amount, req.itemName, req.otp,
                         req.random, req.newOrderId, now, hash);
    assert c.Success? && Apply(st, actor, req, now, hash).value == c.value.state;
    var st' := c.value.state;
    assert OrderWellFormed(c.value.order);
    forall j | j in st'.disputes
      ensures DisputeWellFormed(st'.disputes[j], st'.orders)
    {
      assert DisputeWellFormed(st.disputes[j], st.orders);
    }
  }

  lemma {:induction false} OrderStepPreservesValid(st: State, actor: Actor, req: Request, now: Time, hash: string -> string)
    requires Valid(st) && EnvFresh(st, req)
    requires req.PayRequest? || req.ConfirmRequest? || req.CancelRequest? || req.ReleaseRequest?
    requires Apply(st, actor, req, now, hash).Success?
    ensures Valid(Apply(st, actor, req, now, hash).value)
  {
    var st' := Apply(st, actor, req, now, hash).value;
    var k := req.orderId;
    assert OnlyOrderChanged(st, st', k);
    var o, o' := st.orders[k], st'.orders[k];
    assert OrderWellFormed(o);
    assert SameTerms(o, o') && OrderWellFormed(o');
    if req.ReleaseRequest? {
      // An administrator may release an order that has a dispute on it.
      if j :| j in st.disputes && st.disputes[j].orderId == k {
        assert DisputeWellFormed(st.disputes[j], st.orders);
      }
    } else {
      NoDisputeOnLiveOrder(st, k);
    }
    OrderWriteKeepsValid(st, k, o');
    assert st' == st.(orders := st.orders[k := o']);
  }

  lemma {:induction false} OpenPreservesValid(st: State, actor: Actor, req: Request, now: Time, hash: string -> string)
    requires Valid(st) && EnvFresh(st, req) && req.DisputeRequest?
    requires Apply(st, actor, req, now, hash).Success?
    ensures Valid(Apply(st, actor, req, now, hash).value)
  {
    var st' := Apply(st, actor, req, now, hash).value;
    var k := req.orderId;
    var w := OpenDispute(st, actor.id, k, req.reason, req.newDisputeId, now);
    assert w.Success? && st' == w.value.state;
    var o' := st.orders[k].(status := Disputed);
    assert st'.orders == st.orders[k := o'];
    NoDisputeOnLiveOrder(st, k);
    assert OrderWellFormed(st.orders[k]) && OrderWellFormed(o');
    forall j | j in st'.disputes
      ensures DisputeWellFormed(st'.disputes[j], st'.orders)
    {
      if j != req.newDisputeId {
        assert DisputeWellFormed(st.disputes[j], st.orders);
      }
    }
  }

  /** Replacing an OPEN dispute by its ruling and its order by a well-formed record
      with the same terms, out of reach of another dispute, keeps the invariant. */
  lemma {:induction false} RulingKeepsValid(st: State, id: DisputeId, d': Dispute, o': Order)
    requires Valid(st) && id in st.disputes && st.disputes[id].orderId in st.orders
    requires var d := st.disputes[id];
      && d'.id == d.id && d'.orderId == d.orderId && d'.createdBy == d.createdBy
      && d'.reason == d.reason && d'.status != Open && d'.resolvedAt.Some?
      && (d'.resolutionNote.Some? ==> FitsText(d'.resolutionNote.value))
    requires var o := st.orders[st.disputes[id].orderId];
      && SameTerms(o, o') && OrderWellFormed(o')
      && o'.status != Created && o'.status != Cancelled && !Disputable(o'.status)
      && o'.paymentMethod.Some? && o'.paidAt.Some?
    ensures Valid(State(st.users, st.orders[st.disputes[id].orderId := o'], st.disputes[id := d']))
  {
  }

  lemma {:induction false} ResolvePreservesValid(st: State, actor: Actor, req: Request, now: Time, hash: string -> string)
    requires Valid(st) && EnvFresh(st, req) && req.ResolveRequest?
    requires Apply(st, actor, req, now, hash).Success?
    ensures Valid(Apply(st, actor, req, now, hash).value)
  {
    var st' := Apply(st, actor, req, now, hash).value;
    var w := DisputeService.ResolveDispute(st, req.disputeId, req.decision, req.resolutionNote, now);
    assert w.Success? && st' == w.value.state;
    var d, d' := st.disputes[req.disputeId], w.value.dispute;
    var k := d.orderId;
    var o, o' := st.orders[k], st'.orders[k];
    assert DisputeWellFormed(d, st.orders);
    assert OrderWellFormed(o);
    RulingKeepsValid(st, req.disputeId, d', o');
    assert st' == State(st.users, st.orders[k := o'], st.disputes[req.disputeId := d']);
  }

  /** Every successful request, by anyone, keeps the store invariant. */
  lemma ApplyPreservesValid(st: State, actor: Actor, req: Request, now: Time, hash: string -> string)
    requires Valid(st) && Authenticated(st, actor) && EnvFresh(st, req)
    ensures Apply(st, actor, req, now, hash).Success? ==> Valid(Apply(st, actor, req, now, hash).value)
  {
    if Apply(st, actor, req, now, hash).Success? {
      match req
      case CreateRequest(_, _, _, _, _, _) => CreatePreservesValid(st, actor, req, now, hash);
      case DisputeRequest(_, _, _) => OpenPreservesValid(st, actor, req, now, hash);
      case ResolveRequest(_, _, _) => ResolvePreservesValid(st, actor, req, now, hash);
      case _ => OrderStepPreservesValid(st, actor, req, now, hash);
    }
  }

  /** Every successful request other than an administrator's release keeps each
      dispute's status in step with its order's status. */
  lemma ApplyPreservesCoupled(st: State, actor: Actor, req: Request, now: Time, hash: string -> string)
    requires Valid(st) && Coupled(st) && EnvFresh(st, req) && !AdminRelease(actor, req)
    ensures Apply(st, actor, req, now, hash).Success? ==> Coupled(Apply(st, actor, req, now, hash).value)
  {
  }

  /** Every successful request, an administrator's release included, keeps every
      DISPUTED order paired with an OPEN dispute: only opening a dispute makes an
      order DISPUTED, and a ruling moves the order on together with its dispute. */
  lemma ApplyKeepsDisputedOpen(st: State, actor: Actor, req: Request, now: Time, hash: string -> string)
    requires Valid(st) && DisputedHasOpen(st) && EnvFresh(st, req)
    ensures Apply(st, actor, req, now, hash).Success? ==> DisputedHasOpen(Apply(st, actor, req, now, hash).value)
  {
    if Apply(st, actor, req, now, hash).Success? {
      var st' := Apply(st, actor, req, now, hash).value;
      if req.DisputeRequest? {
        var w := OpenDispute(st, actor.id, req.orderId, req.reason, req.newDisputeId, now);
        assert w.Success? && st' == w.value.state;
        DisputedKeepsOpen(st, st', req.orderId, req.newDisputeId);
      } else if req.ResolveRequest? {
        var w := ResolveDispute(st, req.disputeId, req.decision, req.resolutionNote, now);
        assert w.Success? && st' == w.value.state;
        RulingKeepsDisputedOpen(st, st', req.disputeId);
      } else if req.CreateRequest? {
        OrderWriteKeepsDisputedOpen(st, st', req.newOrderId);
      } else {
        assert OnlyOrderChanged(st, st', req.orderId);
        OrderWriteKeepsDisputedOpen(st, st', req.orderId);
      }
    }
  }

  /** A write to order `k` alone that leaves it anything but DISPUTED keeps every
      DISPUTED order paired. */
  lemma OrderWriteKeepsDisputedOpen(st: State, st': State, k: OrderId)
    requires DisputedHasOpen(st) && st'.disputes == st.disputes
    requires k in st'.orders ==> st'.orders[k].status != Disputed
    requires forall o :: o in st'.orders && o != k ==> o in st.orders && st'.orders[o] == st.orders[o]
    ensures DisputedHasOpen(st')
  {
  }

  /** Opening dispute `id` on order `k` keeps every DISPUTED order paired. */
  lemma DisputedKeepsOpen(st: State, st': State, k: OrderId, id: DisputeId)
    requires DisputedHasOpen(st) && id !in st.disputes
    requires id in st'.disputes && st'.disputes[id].orderId == k && st'.disputes[id].status == Open
    requires forall j :: j in st.disputes ==> j in st'.disputes && st'.disputes[j] == st.disputes[j]
    requires forall o :: o in st'.orders && o != k ==> o in st.orders && st'.orders[o] == st.orders[o]
    ensures DisputedHasOpen(st')
  {
    forall o | o in st'.orders && st'.orders[o].status == Disputed
      ensures exists j :: j in st'.disputes && st'.disputes[j].orderId == o && st'.disputes[j].status == Open
    {
      if o != k {
        var j :| j in st.disputes && st.disputes[j].orderId == o && st.disputes[j].status == Open;
        assert st'.disputes[j] == st.disputes[j];
      }
    }
  }

  /** A ruling on dispute `id` moves that dispute's order out of DISPUTED and
      leaves every other order and dispute as it was. */
  lemma RulingKeepsDisputedOpen(st: State, st': State, id: DisputeId)
    requires Valid(st) && DisputedHasOpen(st) && id in st.disputes && st.disputes[id].orderId in st.orders
    requires var k := st.disputes[id].orderId;
      && k in st'.orders && st'.orders[k].status != Disputed
      && (forall o :: o in st'.orders && o != k ==> o in st.orders && st'.orders[o] == st.orders[o])
      && (forall j :: j in st.disputes && j != id ==> j in st'.disputes && st'.disputes[j] == st.disputes[j])
    ensures DisputedHasOpen(st')
  {
    var k := st.disputes[id].orderId;
    forall o | o in st'.orders && st'.orders[o].status == Disputed
      ensures exists j :: j in st'.disputes && st'.disputes[j].orderId == o && st'.disputes[j].status == Open
    {
      var j :| j in st.disputes && st.disputes[j].orderId == o && st.disputes[j].status == Open;
      assert j != id;
      assert st'.disputes[j] == st.disputes[j];
    }
  }

  /** A disputed trade: buyer "b", seller "s", administrator "a", one OPEN dispute. */
  function DisputedStore(): (st: State)
    ensures Valid(st) && Coupled(st) && DisputedHasOpen(st)
  {
    var o := Order("o", "b", "s", 100 * 100_000_000, None, Disputed, "h",
                   Some("Bank Transfer"), None, Some(1), None, 0);
    var d := Dispute("d", "o", "b", "never arrived", Open, None, None, 2);
    var st := State(map["b" := Buyer, "s" := Seller, "a" := Admin], map["o" := o], map["d" := d]);
    assert st.disputes["d"].orderId == "o" && st.disputes["d"].status == Open;
    st
  }

  /** The administrator's release skips the status check, so it releases a disputed
      order while its dispute stays OPEN; a later REFUND ruling on that dispute then
      still succeeds and refunds an order whose funds were already released. */
  lemma AdminReleaseBreaksCoupling(now: Time, later: Time, hash: string -> string)
    ensures
      var st := DisputedStore();
      var released := Apply(st, Actor("a", Admin), ReleaseRequest("o"), now, hash);
      && released.Success? && !Coupled(released.value)
      && released.value.orders["o"].status == ReleasedToSeller
      && released.value.disputes["d"].status == Open
      && var refunded := Apply(released.value, Actor("a", Admin),
                               ResolveRequest("d", Refund, None), later, hash);
         && refunded.Success?
         && refunded.value.orders["o"].status == Refunded
         && refunded.value.orders["o"].releasedAt == Some(now)
  {
    var st := DisputedStore();
    var released := Apply(st, Actor("a", Admin), ReleaseRequest("o"), now, hash);
    assert released.value.disputes["d"].orderId == "o";
  }
}

=== FILE: lifecycle.dfy ===
/** The order status graph and the cross-operation properties of the model:
    which status changes requests can make, that a dispute is never opened
    twice on one order, the delivery-code round trip, and two behaviours of the
    code that the status graph alone would not suggest. */
module Lifecycle {
  import opened Results
  import opened Models
  import opened Otp
  import opened Authorization
  import opened OrderService
  import opened DisputeService
  import opened Routes
  import opened Invariants

  /** The escrow path a party walks without an administrator:
      CREATED -> PAID -> DELIVERED -> RELEASED, or CREATED -> CANCELLED. */
  predicate EscrowEdge(a: OrderStatus, b: OrderStatus) {
    || (a == Created && b == PaidEscrowLocked)
    || (a == PaidEscrowLocked && b == DeliveredPendingConfirmation)
    || (a == DeliveredPendingConfirmation && b == ReleasedToSeller)
    || (a == Created && b == Cancelled)
  }

  /** The full lifecycle graph: the escrow path, plus opening a dispute on a paid or
      delivered order and ruling on a disputed one. */
  predicate LifecycleEdge(a: OrderStatus, b: OrderStatus) {
    || EscrowEdge(a, b)
    || (Disputable(a) && b == Disputed)
    || (a == Disputed && (b == Refunded || b == ReleasedToSeller))
  }

  predicate Terminal(s: OrderStatus) {
    s == ReleasedToSeller || s == Refunded || s == Cancelled
  }

  /** Every order of st is still in st' and either kept its status or took an
      escrow-path edge; every new order is CREATED. */
  predicate FollowsEscrowPath(st: State, st': State) {
    && st.orders.Keys <= st'.orders.Keys
    && (forall k :: k in st.orders ==>
          st'.orders[k].status == st.orders[k].status || EscrowEdge(st.orders[k].status, st'.orders[k].status))
    && (forall k :: k in st'.orders && k !in st.orders ==> st'.orders[k].status == Created)
  }

  /** As FollowsEscrowPath, over the full lifecycle graph. */
  predicate FollowsLifecycle(st: State, st': State) {
    && st.orders.Keys <= st'.orders.Keys
    && (forall k :: k in st.orders ==>
          st'.orders[k].status == st.orders[k].status || LifecycleEdge(st.orders[k].status, st'.orders[k].status))
    && (forall k :: k in st'.orders && k !in st.orders ==> st'.orders[k].status == Created)
  }

  /** A successful order request by a buyer or a seller moves every order along the
      escrow path, whatever the store: no party can skip payment or delivery. */
  lemma NonAdminOrderStepsFollowEscrowPath(st: State, actor: Actor, req: Request, now: Time,
                                           hash: string -> string)
    requires EnvFresh(st, req) && actor.role != Admin
    requires !req.DisputeRequest? && !req.ResolveRequest?
    ensures Apply(st, actor, req, now, hash).Success? ==>
              FollowsEscrowPath(st, Apply(st, actor, req, now, hash).value)
  {
  }

  /** In a valid, coupled store every successful request except an administrator's
      release moves every order along the lifecycle graph. */
  lemma StepsFollowLifecycle(st: State, actor: Actor, req: Request, now: Time, hash: string -> string)
    requires Valid(st) && Coupled(st) && EnvFresh(st, req) && !AdminRelease(actor, req)
    ensures Apply(st, actor, req, now, hash).Success? ==>
              FollowsLifecycle(st, Apply(st, actor, req, now, hash).value)
  {
  }

  /** Hence, outside an administrator's release, a terminal order stays as it is. */
  lemma TerminalOrdersStayPut(st: State, actor: Actor, req: Request, now: Time, hash: string -> string,
                              k: OrderId)
    requires Valid(st) && Coupled(st) && EnvFresh(st, req) && !AdminRelease(actor, req)
    requires k in st.orders && Terminal(st.orders[k].status)
    requires Apply(st, actor, req, now, hash).Success?
    ensures Apply(st, actor, req, now, hash).value.orders[k].status == st.orders[k].status
  {
  }

  /** An administrator's release has no status check: it succeeds on any order,
      CANCELLED, REFUNDED and DISPUTED included. */
  lemma AdminReleasesFromAnyStatus(st: State, admin: UserId, k: OrderId, now: Time, hash: string -> string)
    requires k in st.orders
    ensures
      var r := Apply(st, Actor(admin, Admin), ReleaseRequest(k), now, hash);
      r.Success? && r.value.orders[k].status == ReleasedToSeller && r.value.orders[k].releasedAt == Some(now)
  {
  }

  /** Once an order has a dispute, in a valid store, no party can open another on
      it: the order is no longer paid or delivered. There is no duplicate check as
      such; the status check alone closes the door. */
  lemma DisputeBlocksReopening(st: State, j: DisputeId, userId: UserId, reason: string,
                               newId: DisputeId, now: Time)
    requires Valid(st) && j in st.disputes && newId !in st.disputes
    ensures
      var k := st.disputes[j].orderId;
      var r := OpenDispute(st, userId, k, reason, newId, now);
      && r.Failure?
      && (MayOpenDispute(userId, st.orders[k]) ==> r.error == InvalidState)
  {
  }

  /** A second openDispute on the same order fails, whoever asks and in any store. */
  lemma NoSecondDispute(st: State, u1: UserId, u2: UserId, orderId: OrderId, reason1: string, reason2: string,
                        id1: DisputeId, id2: DisputeId, t1: Time, t2: Time)
    requires id1 !in st.disputes && id2 != id1 && id2 !in st.disputes
    requires OpenDispute(st, u1, orderId, reason1, id1, t1).Success?
    ensures
      var st1 := OpenDispute(st, u1, orderId, reason1, id1, t1).value.state;
      var r := OpenDispute(st1, u2, orderId, reason2, id2, t2);
      && r.Failure?
      && (MayOpenDispute(u2, st.orders[orderId]) ==> r.error == InvalidState)
      && (!MayOpenDispute(u2, st.orders[orderId]) ==> r.error == Unauthorized)
  {
  }

  /** In a valid store the seller of an order can neither pay for it nor confirm its
      delivery, even past the role guard: buyer and seller always differ. */
  lemma SellerCannotActAsBuyer(st: State, k: OrderId, paymentMethod: string, paymentRef: Option<string>,
                               code: string, now: Time, hash: string -> string)
    requires Valid(st) && k in st.orders
    ensures MarkAsPaid(st, k, st.orders[k].sellerId, paymentMethod, paymentRef, now) == Failure(Unauthorized)
    ensures ConfirmDelivery(st, k, st.orders[k].sellerId, code, hash) == Failure(Unauthorized)
  {
  }

  /** The delivery code round trip: an order created without a code hands back a
      generated one; once paid, presenting that code confirms delivery, presenting
      any other code succeeds exactly when it hashes alike, and a second
      confirmation fails because the order has moved on. */
  lemma OtpRoundTrip(st: State, buyer: UserId, seller: UserId, amount: int, itemName: Option<string>,
                     random: int, newId: OrderId, t0: Time, t1: Time, hash: string -> string, other: string)
    requires OtpMin <= random < OtpMax && newId !in st.orders
    requires IsSeller(st, seller) && FitsAmountColumn(amount) && FitsOptVarchar(itemName)
    ensures
      var c := CreateOrder(st, buyer, seller, amount, itemName, None, random, newId, t0, hash);
      && c.Success? && c.value.otp.Some?
      && var code := c.value.otp.value;
         var paid := MarkAsPaid(c.value.state, newId, buyer, "Bank Transfer", None, t1);
         && paid.Success?
         && var confirmed := ConfirmDelivery(paid.value, newId, buyer, code, hash);
            && confirmed.Success?
            && confirmed.value.orders[newId].status == DeliveredPendingConfirmation
            && ConfirmDelivery(confirmed.value, newId, buyer, code, hash) == Failure(InvalidState)
            && (ConfirmDelivery(paid.value, newId, buyer, other, hash).Success? <==> hash(other) == hash(code))
            && (hash(other) != hash(code) ==>
                  ConfirmDelivery(paid.value, newId, buyer, other, hash) == Failure(InvalidOtp))
  {
  }

  /** With a collision-free hash, only the generated code itself confirms delivery. */
  lemma OnlyTheGeneratedCodeConfirms(st: State, buyer: UserId, seller: UserId, amount: int,
                                     random: int, newId: OrderId, t0: Time, t1: Time,
                                     hash: string -> string, other: string)
    requires OtpMin <= random < OtpMax && newId !in st.orders
    requires IsSeller(st, seller) && FitsAmountColumn(amount)
    requires Injective(hash)
    requires other != GeneratedOtp(random)
    ensures
      var c := CreateOrder(st, buyer, seller, amount, None, None, random, newId, t0, hash);
      var paid := MarkAsPaid(c.value.state, newId, buyer, "Bank Transfer", None, t1);
      ConfirmDelivery(paid.value, newId, buyer, other, hash) == Failure(InvalidOtp)
  {
  }

  /** In a valid store the two visibility rules agree in one direction: whoever may
      read a dispute by id also finds it in their list, since its creator is a
      party to its order. */
  lemma ReadableDisputesAreListed(st: State, disputeId: DisputeId, userId: UserId, role: Role)
    requires Valid(st)
    ensures GetDispute(st, disputeId, userId, role).Success? ==>
              ListsDispute(userId, role, st.disputes[disputeId], st.orders)
  {
  }

  /** The list shows a buyer every dispute on the buyer's orders, but reading a
      dispute the seller opened is refused to that same buyer. */
  lemma BuyerListsDisputeButCannotReadIt()
    ensures
      var st := DisputedStore().(disputes := map["d" := DisputedStore().disputes["d"].(createdBy := "s")]);
      && ListsDispute("b", Buyer, st.disputes["d"], st.orders)
      && GetDispute(st, "d", "b", Buyer) == Failure(Unauthorized)
  {
  }

  /** The drawn number 482913 is handed back as the code "482913". */
  lemma GeneratedCodeOfDraw()
    ensures GeneratedOtp(482913) == "482913"
  {
  }

  /** A whole trade through the routes: buyer "B" orders 100.00 from seller "S"
      without a code and is handed "482913"; pays by bank transfer; a wrong code
      is refused and leaves the order paid; the right code confirms delivery; the
      buyer releases the funds; a second release is refused. */
  lemma EscrowWalkthrough(hash: string -> string)
    requires Injective(hash)
    ensures
      var buyer, st0 := Actor("B", Buyer), State(map["B" := Buyer, "S" := Seller], map[], map[]);
      var created := CreateOrder(st0, "B", "S", 100 * 100_000_000, None, None, 482913, "o1", 1, hash);
      && created.Success? && created.value.otp == Some("482913")
      && Apply(st0, buyer, CreateRequest("S", 100 * 100_000_000, None, None, 482913, "o1"), 1, hash)
         == Success(created.value.state)
      && var paid := Apply(created.value.state, buyer, PayRequest("o1", "Bank Transfer", None), 2, hash);
         && paid.Success? && paid.value.orders["o1"].status == PaidEscrowLocked
         && paid.value.orders["o1"].paidAt == Some(2)
         && Apply(paid.value, buyer, ConfirmRequest("o1", "000000"), 3, hash) == Failure(InvalidOtp)
         && var confirmed := Apply(paid.value, buyer, ConfirmRequest("o1", "482913"), 4, hash);
            && confirmed.Success?
            && confirmed.value.orders["o1"].status == DeliveredPendingConfirmation
            && var released := Apply(confirmed.value, buyer, ReleaseRequest("o1"), 5, hash);
               && released.Success?
               && released.value.orders["o1"].status == ReleasedToSeller
               && released.value.orders["o1"].releasedAt == Some(5)
               && Apply(released.value, buyer, ReleaseRequest("o1"), 6, hash) == Failure(InvalidState)
  {
    GeneratedCodeOfDraw();
    assert FitsVarchar("Bank Transfer") && StoredVarchar("Bank Transfer") == "Bank Transfer";
    assert hash("000000") != hash("482913");
  }
}

=== FILE: models.dfy ===
/** The two persisted entities of the escrow core, the user roles they are
    checked against, and the store holding them, keyed by id. */
module Models {
  import opened Results

  type UserId = string
  type OrderId = string
  type DisputeId = string

  /** A timestamp as supplied by the clock. */
  type Time = nat

  /** The role a user account carries. */
  datatype Role = Buyer | Seller | Admin

  /** The seven values of the order status column; a new order starts in Created. */
  datatype OrderStatus =
    | Created
    | PaidEscrowLocked
    | DeliveredPendingConfirmation
    | ReleasedToSeller
    | Disputed
    | Refunded
    | Cancelled

  /** The three values of the dispute status column; a new dispute starts in Open. */
  datatype DisputeStatus = Open | ResolvedRefunded | ResolvedReleased

  /** The amount column is DECIMAL(20, 8): an amount is held as an integer
      count of 10^-8 units, and at most 20 decimal digits of it are stored. */
  const AmountBound: int := 100_000_000_000_000_000_000

  predicate FitsAmountColumn(units: int) {
    -AmountBound < units < AmountBound
  }

  /** The item name, payment method and payment reference columns are the ORM's
      STRING, a VARCHAR(255); the dispute reason and resolution note are TEXT. */
  const VarcharLength: nat := 255

  /** Every character column refuses a value holding U+0000. */
  predicate FitsText(s: string) {
    forall i :: 0 <= i < |s| ==> s[i] != '\0'
  }

  /** A VARCHAR(255) column accepts at most 255 characters, or a longer value
      whose excess is all spaces, which it cuts off silently. */
  predicate FitsVarchar(s: string) {
    && FitsText(s)
    && (forall i :: VarcharLength <= i < |s| ==> s[i] == ' ')
  }

  /** The value a VARCHAR(255) column holds once it has accepted `s`: the whole
      value, or its first 255 characters with only spaces cut off. */
  function StoredVarchar(s: string): (r: string)
    requires FitsVarchar(s)
    ensures |r| <= VarcharLength && FitsText(r)
    ensures r <= s && (r == s || |r| == VarcharLength)
    ensures forall i :: |r| <= i < |s| ==> s[i] == ' '
  {
    if |s| <= VarcharLength then s else s[..VarcharLength]
  }

  predicate FitsOptVarchar(v: Option<string>) {
    v.Some? ==> FitsVarchar(v.value)
  }

  /** A nullable VARCHAR(255) column: NULL stays NULL. */
  function StoredOptVarchar(v: Option<string>): (r: Option<string>)
    requires FitsOptVarchar(v)
    ensures r.Some? <==> v.Some?
    ensures r.Some? ==> r.value == StoredVarchar(v.value)
  {
    if v.Some? then Some(StoredVarchar(v.value)) else None
  }

  /** A value as a VARCHAR(255) column can hold it. */
  predicate HeldByVarchar(v: Option<string>) {
    v.Some? ==> |v.value| <= VarcharLength && FitsText(v.value)
  }

  /** One escrowed trade. Optional columns are `Option`s; the rest are always present. */
  datatype Order = Order(
    id: OrderId,
    buyerId: UserId,
    sellerId: UserId,
    amount: int,
    itemName: Option<string>,
    status: OrderStatus,
    otpHash: string,
    paymentMethod: Option<string>,
    paymentRef: Option<string>,
    paidAt: Option<Time>,
    releasedAt: Option<Time>,
    createdAt: Time)

  /** One arbitration case about one order. */
  datatype Dispute = Dispute(
    id: DisputeId,
    orderId: OrderId,
    createdBy: UserId,
    reason: string,
    status: DisputeStatus,
    resolutionNote: Option<string>,
    resolvedAt: Option<Time>,
    createdAt: Time)

  /** The store: the role of every registered user, and the two tables keyed by primary key. */
  datatype State = State(
    users: map<UserId, Role>,
    orders: map<OrderId, Order>,
    disputes: map<DisputeId, Dispute>)

  /** The fields fixed when a trade is created and never written afterwards. */
  predicate SameTerms(o: Order, o': Order) {
    && o'.id == o.id
    && o'.buyerId == o.buyerId
    && o'.sellerId == o.sellerId
    && o'.amount == o.amount
    && o'.itemName == o.itemName
    && o'.otpHash == o.otpHash
    && o'.createdAt == o.createdAt
  }

  /** st' differs from st in at most the order stored under `id`, which still exists. */
  predicate OnlyOrderChanged(st: State, st': State, id: OrderId) {
    && id in st.orders && id in st'.orders
    && st'.users == st.users
    && st'.disputes == st.disputes
    && st'.orders.Keys == st.orders.Keys
    && (forall k :: k in st.orders && k != id ==> st'.orders[k] == st.orders[k])
  }

  /** No record appears twice in a listing. */
  predicate NoDuplicates<T(==)>(s: seq<T>) {
    forall i, j :: 0 <= i < j < |s| ==> s[i] != s[j]
  }

  /** Every record is stored under its own primary key. */
  predicate KeyedById(st: State) {
    && (forall k :: k in st.orders ==> st.orders[k].id == k)
    && (forall k :: k in st.disputes ==> st.disputes[k].id == k)
  }
}

=== FILE: order_service.dfy ===
/** The escrow order lifecycle: creation with a hashed delivery code, reading
    and listing, payment lock, delivery confirmation, release and cancellation.
    Each operation looks the order up, checks ownership and role, checks the
    status, and only then writes the one record; every failure comes first. */
module OrderService {
  import opened Results
  import opened Models
  import opened Otp
  import opened Authorization

  /** What a successful creation hands back: the new store, the new order, and the
      plaintext code when the server generated it. */
  datatype Creation = Creation(state: State, order: Order, otp: Option<string>)

  predicate IsSeller(st: State, user: UserId) {
    user in st.users && st.users[user] == Seller
  }

  /** No payment, release or dispute has touched the order yet. */
  predicate Untouched(o: Order) {
    o.paymentMethod.None? && o.paymentRef.None? && o.paidAt.None? && o.releasedAt.None?
  }

  /** Creates an order for `buyerId` with the given seller, amount and item name.
      The drawn number `random`, the fresh id `newId`, the clock `now` and the
      one-way `hash` are supplied by the environment. The insert is refused when
      the amount or the item name does not fit its column. */
  function CreateOrder(st: State, buyerId: UserId, sellerId: UserId, amount: int,
                       itemName: Option<string>, otp: Option<string>,
                       random: int, newId: OrderId, now: Time,
                       hash: string -> string): (r: Result<Creation>)
    requires OtpMin <= random < OtpMax
    requires newId !in st.orders
    ensures !IsSeller(st, sellerId) ==> r == Failure(InvalidSeller)
    ensures IsSeller(st, sellerId) && !(FitsAmountColumn(amount) && FitsOptVarchar(itemName)) ==>
              r == Failure(StorageRejected)
    ensures r.Success? <==> IsSeller(st, sellerId) && FitsAmountColumn(amount) && FitsOptVarchar(itemName)
    ensures r.Success? ==>
      var o := r.value.order;
      && r.value.state == st.(orders := st.orders[newId := o])
      && o.id == newId && o.buyerId == buyerId && o.sellerId == sellerId
      && o.amount == amount && o.itemName == StoredOptVarchar(itemName) && o.createdAt == now
      && o.status == Created && Untouched(o)
    ensures r.Success? ==> (r.value.otp.Some? <==> !Supplied(otp))
    ensures r.Success? && Supplied(otp) ==> r.value.order.otpHash == hash(otp.value)
    ensures r.Success? && r.value.otp.Some? ==>
      var code := r.value.otp.value;
      && |code| == 6 && AllDigits(code) && DecimalValue(code) == random
      && r.value.order.otpHash == hash(code)
  {
    if !IsSeller(st, sellerId) then Failure(InvalidSeller)
    else if !FitsAmountColumn(amount) || !FitsOptVarchar(itemName) then Failure(StorageRejected)
    else
      var o := Order(newId, buyerId, sellerId, amount, StoredOptVarchar(itemName), Created,
                     hash(PlainOtp(otp, random)), None, None, None, None, now);
      Success(Creation(st.(orders := st.orders[newId := o]), o, EchoedOtp(otp, random)))
  }

  /** Reads one order; only an administrator or a party to the order may. */
  function GetOrder(st: State, orderId: OrderId, userId: UserId, role: Role): (r: Result<Order>)
    ensures orderId !in st.orders ==> r == Failure(NotFound)
    ensures orderId in st.orders && !MayViewOrder(userId, role, st.orders[orderId]) ==> r == Failure(Unauthorized)
    ensures r.Success? <==> orderId in st.orders && MayViewOrder(userId, role, st.orders[orderId])
    ensures r.Success? ==> r.value == st.orders[orderId]
    ensures r.Failure? ==> r.error == NotFound || r.error == Unauthorized
  {
    if orderId !in st.orders then Failure(NotFound)
    else if !MayViewOrder(userId, role, st.orders[orderId]) then Failure(Unauthorized)
    else Success(st.orders[orderId])
  }

  /** Every order the list shows a caller, that caller may also read by id. */
  lemma ListedOrdersAreReadable(st: State, orderId: OrderId, userId: UserId, role: Role)
    requires orderId in st.orders && ListsOrder(userId, role, st.orders[orderId])
    ensures GetOrder(st, orderId, userId, role) == Success(st.orders[orderId])
  {
  }

  /** Newest first: the order the list is returned in. */
  predicate SortedNewestFirst(s: seq<Order>) {
    forall i, j :: 0 <= i < j < |s| ==> s[i].createdAt >= s[j].createdAt
  }

  /** Places `o` into a newest-first list, after every order at least as new. */
  function InsertNewestFirst(s: seq<Order>, o: Order): (r: seq<Order>)
    requires SortedNewestFirst(s)
    ensures SortedNewestFirst(r)
    ensures forall x :: x in r <==> x in s || x == o
  {
    if |s| == 0 || s[0].createdAt < o.createdAt then
      [o] + s
    else
      var rest := InsertNewestFirst(s[1..], o);
      assert forall x :: x in s[1..] ==> x in s && s[0].createdAt >= x.createdAt;
      [s[0]] + rest
  }

  /** Inserting an order not yet listed keeps the list free of duplicates. */
  lemma {:induction false} InsertKeepsNoDuplicates(s: seq<Order>, o: Order)
    requires SortedNewestFirst(s) && NoDuplicates(s) && o !in s
    ensures NoDuplicates(InsertNewestFirst(s, o))
  {
    if |s| == 0 || s[0].createdAt < o.createdAt {
      ConsNoDuplicates(o, s);
    } else {
      InsertKeepsNoDuplicates(s[1..], o);
      assert s[0] !in s[1..];
      ConsNoDuplicates(s[0], InsertNewestFirst(s[1..], o));
    }
  }

  lemma ConsNoDuplicates(h: Order, t: seq<Order>)
    requires NoDuplicates(t) && h !in t
    ensures NoDuplicates([h] + t)
  {
  }

  /** Lists the caller's orders, newest first: a buyer's purchases, a seller's
      sales, or every order for an administrator. */
  method ListUserOrders(st: State, userId: UserId, role: Role) returns (r: seq<Order>)
    requires KeyedById(st)
    ensures SortedNewestFirst(r)
    ensures NoDuplicates(r)
    ensures forall k :: k in st.orders ==> (st.orders[k] in r <==> ListsOrder(userId, role, st.orders[k]))
    ensures forall o :: o in r ==> o.id in st.orders && st.orders[o.id] == o && ListsOrder(userId, role, o)
  {
    r := [];
    var todo := st.orders.Keys;
    while todo != {}
      invariant todo <= st.orders.Keys
      invariant SortedNewestFirst(r)
      invariant NoDuplicates(r)
      invariant forall k :: k in st.orders && k !in todo ==>
                  (st.orders[k] in r <==> ListsOrder(userId, role, st.orders[k]))
      invariant forall o :: o in r ==>
                  o.id in st.orders && o.id !in todo && st.orders[o.id] == o && ListsOrder(userId, role, o)
      decreases todo
    {
      var k :| k in todo;
      var o := st.orders[k];
      if ListsOrder(userId, role, o) {
        InsertKeepsNoDuplicates(r, o);
        r := InsertNewestFirst(r, o);
      }
      todo := todo - {k};
    }
  }

  /** Records payment: the buyer moves a CREATED order into escrow. The update is
      refused when the method or the reference does not fit its column. */
  function MarkAsPaid(st: State, orderId: OrderId, userId: UserId, paymentMethod: string,
                      paymentRef: Option<string>, now: Time): (r: Result<State>)
    ensures orderId !in st.orders ==> r == Failure(NotFound)
    ensures orderId in st.orders && !MayActAsBuyer(userId, st.orders[orderId]) ==> r == Failure(Unauthorized)
    ensures (orderId in st.orders && MayActAsBuyer(userId, st.orders[orderId])
             && st.orders[orderId].status != Created) ==> r == Failure(InvalidState)
    ensures (orderId in st.orders && MayActAsBuyer(userId, st.orders[orderId])
             && st.orders[orderId].status == Created
             && !(FitsVarchar(paymentMethod) && FitsOptVarchar(paymentRef))) ==> r == Failure(StorageRejected)
    ensures r.Success? <==>
      && orderId in st.orders && MayActAsBuyer(userId, st.orders[orderId]) && st.orders[orderId].status == Created
      && FitsVarchar(paymentMethod) && FitsOptVarchar(paymentRef)
    ensures r.Failure? ==> r.error in {NotFound, Unauthorized, InvalidState, StorageRejected}
    ensures r.Success? ==> OnlyOrderChanged(st, r.value, orderId)
    ensures r.Success? ==>
      var o, o' := st.orders[orderId], r.value.orders[orderId];
      && SameTerms(o, o')
      && o'.status == PaidEscrowLocked
      && o'.paymentMethod == Some(StoredVarchar(paymentMethod)) && o'.paymentRef == StoredOptVarchar(paymentRef)
      && o'.paidAt == Some(now) && o'.releasedAt == o.releasedAt
  {
    if orderId !in st.orders then Failure(NotFound)
    else
      var o := st.orders[orderId];
      if !MayActAsBuyer(userId, o) then Failure(Unauthorized)
      else if o.status != Created then Failure(InvalidState)
      else if !FitsVarchar(paymentMethod) || !FitsOptVarchar(paymentRef) then Failure(StorageRejected)
      else
        var paid := o.(status := PaidEscrowLocked, paymentMethod := Some(StoredVarchar(paymentMethod)),
                       paymentRef := StoredOptVarchar(paymentRef), paidAt := Some(now));
        Success(st.(orders := st.orders[orderId := paid]))
  }

  /** Confirms delivery: the buyer presents the code, which must hash to the stored hash. */
  function ConfirmDelivery(st: State, orderId: OrderId, userId: UserId, otp: string,
                           hash: string -> string): (r: Result<State>)
    ensures orderId !in st.orders ==> r == Failure(NotFound)
    ensures orderId in st.orders && !MayActAsBuyer(userId, st.orders[orderId]) ==> r == Failure(Unauthorized)
    ensures (orderId in st.orders && MayActAsBuyer(userId, st.orders[orderId])
             && st.orders[orderId].status != PaidEscrowLocked) ==> r == Failure(InvalidState)
    ensures orderId in st.orders && MayActAsBuyer(userId, st.orders[orderId]) ==>
      var o := st.orders[orderId];
      o.status == PaidEscrowLocked && !OtpMatches(hash, otp, o.otpHash) ==> r == Failure(InvalidOtp)
    ensures r.Success? <==>
      && orderId in st.orders && MayActAsBuyer(userId, st.orders[orderId])
      && st.orders[orderId].status == PaidEscrowLocked
      && OtpMatches(hash, otp, st.orders[orderId].otpHash)
    ensures r.Failure? ==> r.error in {NotFound, Unauthorized, InvalidState, InvalidOtp}
    ensures r.Success? ==>
      && OnlyOrderChanged(st, r.value, orderId)
      && r.value.orders[orderId] == st.orders[orderId].(status := DeliveredPendingConfirmation)
  {
    if orderId !in st.orders then Failure(NotFound)
    else
      var o := st.orders[orderId];
      if !MayActAsBuyer(userId, o) then Failure(Unauthorized)
      else if o.status != PaidEscrowLocked then Failure(InvalidState)
      else if !OtpMatches(hash, otp, o.otpHash) then Failure(InvalidOtp)
      else Success(st.(orders := st.orders[orderId := o.(status := DeliveredPendingConfirmation)]))
  }

  /** Releases the escrowed funds to the seller. The buyer may do so only after
      delivery was confirmed; an administrator passes with no status check at all. */
  function ReleaseFunds(st: State, orderId: OrderId, userId: UserId, role: Role, now: Time): (r: Result<State>)
    ensures orderId !in st.orders ==> r == Failure(NotFound)
    ensures orderId in st.orders && !MayRelease(userId, role, st.orders[orderId]) ==> r == Failure(Unauthorized)
    ensures (orderId in st.orders && MayRelease(userId, role, st.orders[orderId]) && role != Admin
             && st.orders[orderId].status != DeliveredPendingConfirmation) ==> r == Failure(InvalidState)
    ensures r.Success? <==>
      && orderId in st.orders && MayRelease(userId, role, st.orders[orderId])
      && (role == Admin || st.orders[orderId].status == DeliveredPendingConfirmation)
    ensures r.Failure? ==> r.error in {NotFound, Unauthorized, InvalidState}
    ensures r.Success? ==>
      && OnlyOrderChanged(st, r.value, orderId)
      && r.value.orders[orderId] == st.orders[orderId].(status := ReleasedToSeller, releasedAt := Some(now))
  {
    if orderId !in st.orders then Failure(NotFound)
    else
      var o := st.orders[orderId];
      if !MayRelease(userId, role, o) then Failure(Unauthorized)
      else if o.status != DeliveredPendingConfirmation && role != Admin then Failure(InvalidState)
      else Success(st.(orders := st.orders[orderId := o.(status := ReleasedToSeller, releasedAt := Some(now))]))
  }

  /** Cancels an order before payment; a party or an administrator may. */
  function CancelOrder(st: State, orderId: OrderId, userId: UserId, role: Role): (r: Result<State>)
    ensures orderId !in st.orders ==> r == Failure(NotFound)
    ensures orderId in st.orders && !MayCancel(userId, role, st.orders[orderId]) ==> r == Failure(Unauthorized)
    ensures (orderId in st.orders && MayCancel(userId, role, st.orders[orderId])
             && st.orders[orderId].status != Created) ==> r == Failure(InvalidState)
    ensures r.Success? <==>
      orderId in st.orders && MayCancel(userId, role, st.orders[orderId]) && st.orders[orderId].status == Created
    ensures r.Failure? ==> r.error in {NotFound, Unauthorized, InvalidState}
    ensures r.Success? ==>
      && OnlyOrderChanged(st, r.value, orderId)
      && r.value.orders[orderId] == st.orders[orderId].(status := Cancelled)
  {
    if orderId !in st.orders then Failure(NotFound)
    else
      var o := st.orders[orderId];
      if !MayCancel(userId, role, o) then Failure(Unauthorized)
      else if o.status != Created then Failure(InvalidState)
      else Success(st.(orders := st.orders[orderId := o.(status := Cancelled)]))
  }
}

=== FILE: otp.dfy ===
/** The delivery-proof code: how a generated code is rendered as text, which
    code an order keeps, and how a presented code is checked against the stored hash.
    The one-way hash is a parameter `hash` of the operations that use it. */
module Otp {
  import opened Results

  /** The bounds handed to the random source; the upper bound is exclusive. */
  const OtpMin: nat := 100000
  const OtpMax: nat := 999999

  predicate IsDigit(c: char) {
    '0' <= c <= '9'
  }

  predicate AllDigits(s: string) {
    forall i :: 0 <= i < |s| ==> IsDigit(s[i])
  }

  function DigitChar(d: nat): (c: char)
    requires d < 10
    ensures IsDigit(c) && c as int - '0' as int == d
  {
    ('0' as int + d) as char
  }

  function DigitValue(c: char): nat
    requires IsDigit(c)
  {
    c as int - '0' as int
  }

  function Pow10(k: nat): (p: nat)
    ensures p >= 1
  {
    if k == 0 then 1 else 10 * Pow10(k - 1)
  }

  /** The decimal text of a non-negative integer, most significant digit first,
      without leading zeros (what `toString()` yields for such a number). */
  function DecimalString(n: nat): (s: string)
    ensures |s| >= 1 && AllDigits(s)
    ensures s[0] == '0' <==> n == 0
    decreases n
  {
    if n < 10 then [DigitChar(n)] else DecimalString(n / 10) + [DigitChar(n % 10)]
  }

  /** Reads a string of decimal digits back as the number it denotes. */
  function DecimalValue(s: string): nat
    requires AllDigits(s)
  {
    if s == [] then 0 else 10 * DecimalValue(s[..|s| - 1]) + DigitValue(s[|s| - 1])
  }

  /** Reading the decimal text of n gives back n. */
  lemma {:induction false} DecimalRoundTrip(n: nat)
    ensures DecimalValue(DecimalString(n)) == n
  {
    var s := DecimalString(n);
    if n >= 10 {
      DecimalRoundTrip(n / 10);
      assert s[..|s| - 1] == DecimalString(n / 10);
    }
  }

  /** A number with k + 1 digits has a decimal text of length k + 1. */
  lemma {:induction false} DecimalLength(n: nat, k: nat)
    requires Pow10(k) <= n < Pow10(k + 1)
    ensures |DecimalString(n)| == k + 1
  {
    if k > 0 {
      assert Pow10(k) == 10 * Pow10(k - 1);
      assert Pow10(k + 1) == 10 * Pow10(k);
      assert Pow10(k - 1) <= n / 10 < Pow10(k);
      DecimalLength(n / 10, k - 1);
    }
  }

  /** The code generated when the buyer supplies none: the decimal text of the
      drawn number, which is exactly six digits with a non-zero first digit. */
  function GeneratedOtp(random: int): (s: string)
    requires OtpMin <= random < OtpMax
    ensures |s| == 6 && AllDigits(s) && s[0] != '0'
    ensures DecimalValue(s) == random
  {
    assert Pow10(5) == 100000 by {
      assert Pow10(2) == 100;
      assert Pow10(4) == 10000;
    }
    assert Pow10(6) == 1000000;
    DecimalLength(random, 5);
    DecimalRoundTrip(random);
    DecimalString(random)
  }

  /** JavaScript truthiness of the optional `otp` body field: absent and the empty
      string both count as "not supplied". */
  predicate Supplied(otp: Option<string>) {
    otp.Some? && otp.value != ""
  }

  /** The plaintext code a new order is bound to: the caller's, or a generated one. */
  function PlainOtp(otp: Option<string>, random: int): (s: string)
    requires OtpMin <= random < OtpMax
    ensures Supplied(otp) ==> s == otp.value
    ensures !Supplied(otp) ==> |s| == 6 && AllDigits(s) && DecimalValue(s) == random
  {
    if Supplied(otp) then otp.value else GeneratedOtp(random)
  }

  /** The code echoed back to the creator: only one the server generated. */
  function EchoedOtp(otp: Option<string>, random: int): (e: Option<string>)
    requires OtpMin <= random < OtpMax
    ensures e.Some? <==> !Supplied(otp)
    ensures e.Some? ==> e.value == PlainOtp(otp, random) && |e.value| == 6
  {
    if Supplied(otp) then None else Some(GeneratedOtp(random))
  }

  /** A presented code is accepted exactly when its hash is the stored hash. */
  predicate OtpMatches(hash: string -> string, presented: string, otpHash: string) {
    hash(presented) == otpHash
  }

  /** The hash primitive never maps two codes to one value. */
  ghost predicate Injective(hash: string -> string) {
    forall a: string, b: string :: hash(a) == hash(b) ==> a == b
  }
}

=== FILE: results.dfy ===
/** Failure-carrying values shared by every module of the escrow model.
    The services signal failure by throwing; here each failure is a value. */
module Results {

  /** A possibly absent field or argument (a nullable column, an optional body field). */
  datatype Option<+T> = None | Some(value: T)

  /** The kinds of failure the order and dispute services, their routes and the store raise. */
  datatype Error =
    | NotFound          // the order or dispute id does not resolve
    | Unauthorized      // a role guard or an ownership check failed
    | InvalidInput      // the route's request schema rejected the body
    | InvalidSeller     // the seller id does not name a user with the SELLER role
    | InvalidState      // the status does not admit the requested transition
    | InvalidOtp        // the presented delivery code does not match the stored hash
    | AlreadyResolved   // the dispute is no longer OPEN
    | InvalidDecision   // a resolution decision other than REFUND or RELEASE
    | StorageRejected   // the database refuses the write: the amount overflows its column, a
                        // VARCHAR(255) value is too long, or a text holds U+0000
    | RuntimeFault      // a JavaScript ReferenceError or TypeError escapes the service

  /** The outcome of an operation: its value, or the error it raised. */
  datatype Result<+T> = Success(value: T) | Failure(error: Error) {

    predicate IsFailure() {
      Failure?
    }

    function PropagateFailure<U>(): Result<U>
      requires Failure?
    {
      Failure(error)
    }

    function Extract(): T
      requires Success?
    {
      value
    }
  }
}

=== FILE: routes.dfy ===
/** The HTTP layer in front of the two services, reduced to what changes the
    outcome: the role guard each route applies, then the request schema, then
    the service call. `Apply` is the resulting transition relation on the store. */
module Routes {
  import opened Results
  import opened Models
  import opened Otp
  import opened Authorization
  import OrderService
  import DisputeService

  /** The payment methods the payment schema accepts. */
  const PaymentMethods: set<string> := {"Mobile Money", "Bank Transfer"}

  /** Length of a delivery code in the order schemas. */
  const OtpLength: nat := 6

  /** Shortest dispute reason and resolution note the dispute schemas accept. */
  const MinReasonLength: nat := 10
  const MinNoteLength: nat := 5

  /** One state-changing request, together with what the environment contributes
      to it: the number drawn for a generated code and the fresh primary keys. */
  datatype Request =
    | CreateRequest(sellerId: UserId, amount: int, itemName: Option<string>, otp: Option<string>,
                    random: int, newOrderId: OrderId)
    | PayRequest(orderId: OrderId, paymentMethod: string, paymentRef: Option<string>)
    | ConfirmRequest(orderId: OrderId, code: string)
    | ReleaseRequest(orderId: OrderId)
    | CancelRequest(orderId: OrderId)
    | DisputeRequest(orderId: OrderId, reason: string, newDisputeId: DisputeId)
    | ResolveRequest(disputeId: DisputeId, decision: DisputeService.Decision, resolutionNote: Option<string>)

  function EndpointOf(req: Request): Endpoint {
    match req
    case CreateRequest(_, _, _, _, _, _) => OrdersPost
    case PayRequest(_, _, _) => OrderPay
    case ConfirmRequest(_, _) => OrderConfirm
    case ReleaseRequest(_) => OrderRelease
    case CancelRequest(_) => OrderCancel
    case DisputeRequest(_, _, _) => DisputesPost
    case ResolveRequest(_, _, _) => DisputeResolve
  }

  /** The request schema of each route. */
  predicate BodyValid(req: Request) {
    match req
    case CreateRequest(_, amount, _, otp, _, _) => amount > 0 && (otp.None? || |otp.value| == OtpLength)
    case PayRequest(_, paymentMethod, _) => paymentMethod in PaymentMethods
    case ConfirmRequest(_, code) => |code| == OtpLength
    case ReleaseRequest(_) => true
    case CancelRequest(_) => true
    case DisputeRequest(_, reason, _) => |reason| >= MinReasonLength
    case ResolveRequest(_, decision, note) =>
      !decision.Unrecognized? && (note.None? || |note.value| >= MinNoteLength)
  }

  /** What the environment guarantees: the drawn number lies in the random
      source's range and new primary keys are unused. */
  predicate EnvFresh(st: State, req: Request) {
    match req
    case CreateRequest(_, _, _, _, random, newId) => OtpMin <= random < OtpMax && newId !in st.orders
    case DisputeRequest(_, _, newId) => newId !in st.disputes
    case _ => true
  }

  /** The service call a request reaches once its route has admitted it. */
  function Dispatch(st: State, actor: Actor, req: Request, now: Time, hash: string -> string): Result<State>
    requires EnvFresh(st, req)
  {
    match req
    case CreateRequest(sellerId, amount, itemName, otp, random, newId) =>
      var c :- OrderService.CreateOrder(st, actor.id, sellerId, amount, itemName, otp, random, newId, now, hash);
      Success(c.state)
    case PayRequest(orderId, paymentMethod, paymentRef) =>
      OrderService.MarkAsPaid(st, orderId, actor.id, paymentMethod, paymentRef, now)
    case ConfirmRequest(orderId, code) => OrderService.ConfirmDelivery(st, orderId, actor.id, code, hash)
    case ReleaseRequest(orderId) => OrderService.ReleaseFunds(st, orderId, actor.id, actor.role, now)
    case CancelRequest(orderId) => OrderService.CancelOrder(st, orderId, actor.id, actor.role)
    case DisputeRequest(orderId, reason, newId) =>
      var w :- DisputeService.OpenDispute(st, actor.id, orderId, reason, newId, now);
      Success(w.state)
    case ResolveRequest(disputeId, decision, note) =>
      var w :- DisputeService.ResolveDispute(st, disputeId, decision, note, now);
      Success(w.state)
  }

  /** One request end to end: role guard, then schema, then the service. A request
      refused by either guard fails before the service looks at the store. */
  function Apply(st: State, actor: Actor, req: Request, now: Time, hash: string -> string): (r: Result<State>)
    requires EnvFresh(st, req)
    ensures !RouteAdmits(EndpointOf(req), actor.role) ==> r == Failure(Unauthorized)
    ensures RouteAdmits(EndpointOf(req), actor.role) && !BodyValid(req) ==> r == Failure(InvalidInput)
    ensures r.Success? ==> RouteAdmits(EndpointOf(req), actor.role) && BodyValid(req)
    ensures r.Success? ==> r.value.users == st.users
    ensures r.Success? ==> st.orders.Keys <= r.value.orders.Keys && st.disputes.Keys <= r.value.disputes.Keys
  {
    if !RouteAdmits(EndpointOf(req), actor.role) then Failure(Unauthorized)
    else if !BodyValid(req) then Failure(InvalidInput)
    else Dispatch(st, actor, req, now, hash)
  }

  /** A resolution that passes the route always carries REFUND or RELEASE, so the
      service's invalid-decision branch is out of reach through HTTP. */
  lemma RoutedResolutionIsRecognised(st: State, actor: Actor, req: Request, now: Time, hash: string -> string)
    requires req.ResolveRequest? && EnvFresh(st, req)
    ensures Apply(st, actor, req, now, hash).Failure? ==> Apply(st, actor, req, now, hash).error != InvalidDecision
  {
  }
}
